=== FILE: README.md ===
# Ad-serving demo: a Dafny model of its decision logic

The system serves advertisements to a demo Android app. It has three parts:

- a Flask backend that keeps ads in a MongoDB collection and keeps impression and click events in an in-memory list;
- a browser admin portal that creates, edits, lists and deletes ads;
- an Android SDK. Its `AdManager` fetches a random ad and reports impressions and clicks. Its `AdView` widget shows the ad. A demo app embeds the widget beside a browsable list of Counter-Strike maps.

This project models the sequential logic of each part as pure functions over immutable data, and proves what each operation promises.

- `values.dfy` (`Values`): the types the layers share. These are `Option`, the JSON/BSON scalar `Value`, a decoded JSON object `Body`, the wire id `Id`, and `Reply`, the `(jsonify(...), code)` pair a route returns.
- `object_id.dfy` (`ObjectIds`): MongoDB object ids. `ObjectId(s)` accepts exactly 24 hex digits in either case. `str(oid)` prints lower case, so printing and then parsing gives the id back.
- `ad_model.dfy` (`AdModel`): the `Ad` record of `models/ad.py`. It covers the constructor defaults, `to_dict`, and `from_dict`, which resets the counters.
- `ads_routes.dfy` (`AdsRoutes`): the `/api/ads` routes. Each is a function of the collection: a sequence of documents in insertion order with distinct keys. List, random and get-by-id return only a reply, so by their types they cannot change the collection. Create returns the new collection beside its reply.
- `analytics.dfy` (`Analytics`): the `/api/analytics` routes. These are an append-only event log, the counts over it, and the click-through-rate guard.
- `admin_portal.dfy` (`AdminPortal`): the handlers of `app.js`. This covers JavaScript's `trim`, `truncateUrl`, the form payload, URL validation order, the message shown, the delete confirmation, loading an ad into the edit form, and the ad table's state. `isValidUrl` relies on the browser's URL parser, so it is a parameter.
- `ad_manager.dfy` (`AdManager`): how a fetch outcome becomes exactly one callback, and what the tracking calls send.
- `ad_view.dfy` (`AdView`): the widget as a state machine. Each call it makes (fetch, track impression, track click, open link) is appended to a trace.
- `maps_screen.dfy` (`MapsScreen`): the sample maps, the list/detail switch, and the bounded index behind the detail screen's arrows.
- `end_to_end.dfy` (`EndToEnd`): lemmas across layers.
  - What an admin-posted form becomes in the collection.
  - How the backend's 404 for "no active ad" reaches the SDK as "Failed to fetch ad: 404".
  - What an SDK tracking call appends to the event log.

Modelling choices:

- The clock (`datetime.utcnow()`) is a parameter `now`.
- `random.choice` is an index parameter `choice` that lies in range.
- The object id `insert_one` assigns is a parameter `newKey` that no stored document has.
- Where the SDK and the backend disagree on the id type, one string `Id` is used. `Ad.kt` and `AnalyticsRequest` declare `ad_id: Int`. The backend emits `str(_id)` and `AdManager.trackImpression`/`trackClick` take a `String`.
- The backend stores the JSON values the request body holds, within the limits of BSON encoding (see `AdsRoutes.CreateAd` under "## Left out"). Ad fields are therefore `Value`s, and "active" means BSON equality with `true`.
- The analytics event's `user_location` is `data.get('location')`: the body's value when the key is present, and None when it is absent.
- Gson leaves null fields out of the JSON it writes. An SDK tracking request therefore carries `ad_id` alone.

## Model

| member | source | states |
|---|---|---|
| `AdModel.NewAd` | backend-api/src/models/ad.py:6-17 | A new record has zero impressions and clicks whatever the arguments; every other field is the argument given, with location and ad_id defaulting to None and active to true. |
| `AdModel.ToDict` | backend-api/src/models/ad.py:19-32 | The document has exactly ten keys, each holding the matching attribute. |
| `AdModel.FromDict` | backend-api/src/models/ad.py:34-44 | Never fails: an absent title, description, URL, location or ad_id becomes None, an absent active becomes true, and the counters are zero whatever the body says. |
| `AdModel.FromDictToDict` | backend-api/src/models/ad.py:19-44 | Reading back a record's own document keeps ad_id, title, description, both URLs, location and active, and resets the counters and the timestamp. |
| `AdModel.FreshRoundTrip` | backend-api/src/models/ad.py:6-44 | For a freshly constructed record, `from_dict` undoes `to_dict` exactly. |
| `ObjectIds.Parse` | backend-api/src/routes/ads.py:81 | `ObjectId(s)` succeeds exactly on 24-hex-digit strings and names the lower-cased id. |
| `ObjectIds.ParsePrinted` | backend-api/src/routes/ads.py:94 | Parsing the printed form of an id gives the id back. |
| `ObjectIds.ParseIgnoresCase` | backend-api/src/routes/ads.py:81 | Two valid ids differing only in letter case select the same document. |
| `AdsRoutes.Active` | backend-api/src/routes/ads.py:16 | The query returns exactly the stored documents whose active field is the boolean true. |
| `AdsRoutes.ActiveKeysDistinct` | backend-api/src/routes/ads.py:16 | The query returns each matching document once: over a collection with distinct keys, the result's keys are distinct. |
| `AdsRoutes.Served` | backend-api/src/routes/ads.py:20 | A returned document is the stored one with only ad_id overwritten by the printed key; being active is unaffected. |
| `AdsRoutes.GetAllAds` | backend-api/src/routes/ads.py:13-27 | Returns every active document and only those, each with ad_id set to its key. Over a collection with distinct keys, no document appears twice. count equals the number returned, which is the number of active documents. |
| `AdsRoutes.GetRandomAd` | backend-api/src/routes/ads.py:29-47 | Fails with 404 "No ads available" exactly when no document is active; otherwise returns an active stored document with ad_id set to its key. |
| `AdsRoutes.RandomWithSingleActive` | backend-api/src/routes/ads.py:32-47 | With exactly one active document, the random route returns that document. |
| `AdsRoutes.FirstMissing` | backend-api/src/routes/ads.py:55-61 | Names the first field, in checking order, that is not a key of the body, or nothing when all are present. |
| `AdsRoutes.CreateAd` | backend-api/src/routes/ads.py:49-75 | Succeeds exactly when title, description, image_url and link_url are all present. Failure is 400 naming the first missing field and leaves the collection alone. Success is 201 and appends exactly one record under the new key with zero counters, leaving earlier records untouched. |
| `AdsRoutes.Find` | backend-api/src/routes/ads.py:81 | Finds a document under the key exactly when one is stored. |
| `AdsRoutes.GetAdById` | backend-api/src/routes/ads.py:77-99 | A malformed id gives 400 "Invalid ad ID", a well-formed absent id 404 "Ad not found", and otherwise the stored document with ad_id set to its key. |
| `AdsRoutes.GetStored` | backend-api/src/routes/ads.py:88-99 | Every stored document, active or not, is returned when read by its served id. |
| `AdsRoutes.CreateKeepsKeysDistinct` | backend-api/src/routes/ads.py:64-69 | Creating keeps the collection's keys distinct. |
| `AdsRoutes.CreateThenGet` | backend-api/src/routes/ads.py:49-99 | Reading a created ad by the id in the create reply returns the submitted title, description, URLs, location and active. |
| `Analytics.Track` | backend-api/src/routes/analytics.py:10-59 | Without ad_id: 400 "Missing ad_id" and the log unchanged. Otherwise: 201, and exactly one event of the request's kind appended with the given ad_id and location, earlier events untouched. |
| `Analytics.Count` | backend-api/src/routes/analytics.py:65-66 | A total never exceeds the length of the log. |
| `Analytics.CountsCoverLog` | backend-api/src/routes/analytics.py:65-66 | The impression and click totals add up to the length of the log. |
| `Analytics.GetStats` | backend-api/src/routes/analytics.py:62-74 | Reports the two totals, whose sum is the log's length; ctr is 0 with no impressions and otherwise satisfies ctr × impressions = clicks × 100. |
| `Analytics.TrackBumpsOneTotal` | backend-api/src/routes/analytics.py:15-66 | One accepted event raises its own kind's total by exactly one and leaves the other total unchanged. |
| `Analytics.TrackEachCounts` | backend-api/src/routes/analytics.py:10-66 | N accepted events of one kind raise that total by exactly N. |
| `Analytics.ClicksCanExceedImpressions` | backend-api/src/routes/analytics.py:36-66 | A click is accepted without any earlier impression, so clicks can exceed impressions. |
| `AdminPortal.Trim` | admin-portal/app.js:140-144 | `trim` returns a string no longer than its input that neither begins nor ends with whitespace or a line terminator. |
| `AdminPortal.TrimUnwraps` | admin-portal/app.js:140-144 | `trim` removes exactly the surrounding whitespace: a tight string wrapped in whitespace trims to itself. |
| `AdminPortal.TrimIdempotent` | admin-portal/app.js:140-144 | Trimming twice is trimming once. |
| `AdminPortal.TruncateUrl` | admin-portal/app.js:335-338 | A URL of at most maxLength characters is returned as is; a longer one becomes its first maxLength characters and "...", so the result has at most maxLength + 3 characters. |
| `AdminPortal.TruncateIdempotent` | admin-portal/app.js:335-338 | Truncating a truncated URL changes nothing. |
| `AdminPortal.BuildPayload` | admin-portal/app.js:139-146 | Every text field is trimmed, and the location is null exactly when it is empty after trimming. |
| `AdminPortal.PayloadIsClean` | admin-portal/app.js:139-146 | No payload field has surrounding whitespace, and a location is never sent as an empty string. |
| `AdminPortal.Feedback` | admin-portal/app.js:170-186 | Success text exactly on status success. Otherwise "❌ " with the server's message, or the operation's fallback when the message is missing or empty. A network error gets its own text. |
| `AdminPortal.FailureTextsNameACause` | admin-portal/app.js:180 | Every failure text starts with "❌ " and continues with the server's non-empty message when there is one. |
| `AdminPortal.UrlError` | admin-portal/app.js:148-157 | The image URL is checked before the link URL, and each failure has its own message. |
| `AdminPortal.Submit` | admin-portal/app.js:131-187 | A request is sent exactly when both trimmed URLs are valid. Otherwise the first invalid field's message is shown and nothing is reloaded. The request carries the built payload, and a reload follows exactly a success. |
| `AdminPortal.HandleCreate` | admin-portal/app.js:131-187 | Create posts the trimmed payload, or stops with an error message and sends nothing. |
| `AdminPortal.HandleEdit` | admin-portal/app.js:230-288 | Edit puts the trimmed payload to the edited ad's id, or stops with an error message and sends nothing. |
| `AdminPortal.DeleteAd` | admin-portal/app.js:291-315 | A declined confirmation sends nothing and shows nothing; a confirmed one sends one DELETE and alerts the outcome. |
| `AdminPortal.ImageUrlCheckedFirst` | admin-portal/app.js:148-157 | With an invalid image URL the outcome is "Invalid image URL" and no request, whatever the link URL and the server. |
| `AdminPortal.OpenEditModal` | admin-portal/app.js:190-221 | On success the form shows the ad's fields, its location as is and a null location as ''. A failed reply alerts "Failed to load ad data" and an exception alerts "Error loading ad data". |
| `AdminPortal.EditRoundTrip` | admin-portal/app.js:200-247 | Opening a clean ad and saving it unchanged re-sends the same fields; a null location goes back as null. |
| `AdminPortal.LoadAds` | admin-portal/app.js:75-128 | Rows appear exactly for a successful non-empty list, one per ad in order, each showing `truncateUrl(link_url)` (at most 43 characters) and an Active or Inactive badge from the ad's active flag. Any other reply shows "No ads found" and an exception shows "Error loading ads". |
| `AdminPortal.FailedListLooksEmpty` | admin-portal/app.js:83-121 | A non-success reply shows the same table as an empty list. |
| `AdManager.FetchRandomAd` | android-demo-app/adssdk/src/main/java/com/example/adssdk/AdManager.kt:19-33 | Exactly one callback. onSuccess with the body's ad exactly when the response is 2xx with a body. Otherwise "Failed to fetch ad: " and the code, or "Network error: " and the message for a transport failure. |
| `AdManager.NotFoundMessage` | android-demo-app/adssdk/src/main/java/com/example/adssdk/AdManager.kt:24-25 | A 404 reaches the caller as "Failed to fetch ad: 404". |
| `AdManager.EmptySuccessIsError` | android-demo-app/adssdk/src/main/java/com/example/adssdk/AdManager.kt:22-25 | A 2xx response without a body is reported as an error. |
| `AdManager.NatToStringValue` | android-demo-app/adssdk/src/main/java/com/example/adssdk/AdManager.kt:25 | The status code is written in decimal: reading the digits back gives the code. |
| `AdManager.TrackImpression` | android-demo-app/adssdk/src/main/java/com/example/adssdk/AdManager.kt:36-47 | Sends one request to the impression endpoint carrying the given id and a null location. |
| `AdManager.TrackClick` | android-demo-app/adssdk/src/main/java/com/example/adssdk/AdManager.kt:50-61 | Sends one request to the click endpoint carrying the given id and a null location. |
| `AdManager.RequestJson` | android-demo-app/adssdk/src/main/java/com/example/adssdk/AdService.kt:19-22 | The request body always has ad_id with the request's id, and has location exactly when the request carries one, holding that location. |
| `AdView.Initialize` | android-demo-app/adssdk/src/main/java/com/example/adssdk/AdView.kt:88-90 | After initialize the widget has a manager and nothing else changed. |
| `AdView.ShowError` | android-demo-app/adssdk/src/main/java/com/example/adssdk/AdView.kt:132-136 | Shows "Ad Error" and the message and greys the image, keeping the current ad and sending nothing. |
| `AdView.Display` | android-demo-app/adssdk/src/main/java/com/example/adssdk/AdView.kt:109-119 | Shows the ad's title, description and image, and changes nothing else: no call goes out and the current ad is not set. |
| `AdView.LoadAd` | android-demo-app/adssdk/src/main/java/com/example/adssdk/AdView.kt:93-106 | Without a manager: shows "AdManager not initialized" and sends nothing. With one: sends exactly the random-ad request. |
| `AdView.Deliver` | android-demo-app/adssdk/src/main/java/com/example/adssdk/AdView.kt:94-102 | On success the ad becomes current and is shown, and one impression is sent for its id. On error the message is shown and the current ad is kept. |
| `AdView.Click` | android-demo-app/adssdk/src/main/java/com/example/adssdk/AdView.kt:79-84 | With no current ad nothing happens; otherwise one click for its id is sent and then its link is opened, in that order. |
| `AdView.LoadBeforeInitialize` | android-demo-app/adssdk/src/main/java/com/example/adssdk/AdView.kt:93-105 | Loading a new widget before initialize shows the error and sends no request. |
| `AdView.LoadAfterInitialize` | android-demo-app/adssdk/src/main/java/com/example/adssdk/AdView.kt:88-94 | After initialize, loading sends exactly one request and leaves the title, the description, the image and the current ad as they were until it answers. |
| `AdView.SuccessfulLoad` | android-demo-app/adssdk/src/main/java/com/example/adssdk/AdView.kt:93-99 | A successful load sends the request and then exactly one impression for the received ad, and shows that ad. |
| `AdView.FailedLoadKeepsPreviousAd` | android-demo-app/adssdk/src/main/java/com/example/adssdk/AdView.kt:79-102 | A failed load keeps the previous ad, so a later click still tracks and opens the previously loaded ad. |
| `AdView.ClicksAndLoadsDoNotMix` | android-demo-app/adssdk/src/main/java/com/example/adssdk/AdView.kt:79-99 | A click never sends an impression, and a load never sends a click. |
| `MapsScreen.SampleMaps` | android-demo-app/app/src/main/java/com/example/counterstrikemaps/MainActivity.kt:180-232 | Seven competitive maps with ids 1 to 7 in order. |
| `MapsScreen.Left` | android-demo-app/app/src/main/java/com/example/counterstrikemaps/MainActivity.kt:259-263 | The left handler moves the index back by at most one and never below 0. |
| `MapsScreen.LeftEnabled` | android-demo-app/app/src/main/java/com/example/counterstrikemaps/MainActivity.kt:264 | The left arrow is enabled exactly when its handler would move the index. |
| `MapsScreen.Right` | android-demo-app/app/src/main/java/com/example/counterstrikemaps/MainActivity.kt:283-287 | The right handler moves the index forward by at most one and never past n − 1. |
| `MapsScreen.RightEnabled` | android-demo-app/app/src/main/java/com/example/counterstrikemaps/MainActivity.kt:288 | The right arrow is enabled exactly when its handler would move the index. |
| `MapsScreen.EnabledIffMoves` | android-demo-app/app/src/main/java/com/example/counterstrikemaps/MainActivity.kt:258-288 | Each arrow is enabled exactly when tapping it moves the index by one, so left at 0 and right at n − 1 are no-ops. |
| `MapsScreen.TapStaysInRange` | android-demo-app/app/src/main/java/com/example/counterstrikemaps/MainActivity.kt:259-287 | One tap keeps an index in [0, n) within [0, n). |
| `MapsScreen.TapAllStaysInRange` | android-demo-app/app/src/main/java/com/example/counterstrikemaps/MainActivity.kt:241-287 | Any sequence of taps keeps the index in [0, n), so `maps[currentIndex]` stays defined. |
| `MapsScreen.ArrowsUndoEachOther` | android-demo-app/app/src/main/java/com/example/counterstrikemaps/MainActivity.kt:259-287 | Left then right from an index above 0, and right then left from an index below n − 1, return to the start. |
| `MapsScreen.TapCard` | android-demo-app/app/src/main/java/com/example/counterstrikemaps/MainActivity.kt:83 | A transition with no contract beyond its result: tapping card k shows the detail screen at index k. Its range property is stated by NavigationStaysInRange. |
| `MapsScreen.TapArrow` | android-demo-app/app/src/main/java/com/example/counterstrikemaps/MainActivity.kt:259-288 | An arrow changes only the detail screen's own index, by at most one, and keeps an index valid for n maps valid; the selected card is unchanged. |
| `MapsScreen.Back` | android-demo-app/app/src/main/java/com/example/counterstrikemaps/MainActivity.kt:61 | A transition with no contract beyond its result: Back shows the list from any screen. |
| `MapsScreen.NavigationStaysInRange` | android-demo-app/app/src/main/java/com/example/counterstrikemaps/MainActivity.kt:53-62 | A card tap followed by any arrows keeps the index valid for the sample list, and Back returns to the list. |
| `EndToEnd.PayloadJson` | admin-portal/app.js:139-166 | The posted JSON carries every required field and a null location as null. |
| `EndToEnd.PortalCreateThenGet` | backend-api/src/routes/ads.py:55-75 | Any admin form passes the backend's field check. Reading the new ad back gives the trimmed fields: a blank location reads back as null and any other location as its trimmed text. The counters are zero. |
| `EndToEnd.Transmit` | android-demo-app/adssdk/src/main/java/com/example/adssdk/AdManager.kt:20-27 | The SDK sees the backend's status code, and a body exactly for a success reply: the "success" envelope around the decoded ad. |
| `EndToEnd.NoActiveAdReachesSdkAs404` | backend-api/src/routes/ads.py:34-38 | With no active ad, the SDK's caller receives "Failed to fetch ad: 404". |
| `EndToEnd.ActiveAdReachesSdk` | android-demo-app/adssdk/src/main/java/com/example/adssdk/AdView.kt:94-99 | With an active ad, the SDK receives an active stored ad and the widget tracks one impression for it. |
| `EndToEnd.SdkTrackingReachesLog` | android-demo-app/adssdk/src/main/java/com/example/adssdk/AdManager.kt:36-61 | Every SDK tracking call is accepted and appends one event of its kind for the same id with no user location. |

## Left out

- Server-side update and delete: `routes/ads.py` has no PUT or DELETE handler, although the portal sends both. The portal's side of those requests is modelled; what the store would do is not.
- Per-ad counters: no handler increments an ad's `impressions` or `clicks`, and analytics events are not linked to ad records. The model does neither.
- MongoDB and Flask plumbing (`database.py`, `app.py`, `api/index.py`): connection, ping, blueprint registration and routing are left out. The collection is assumed to hold only documents written by `create_ad`.
- Request bodies that are not JSON objects are not modelled. Such a body gets a 400 or a 500: `field not in data` also runs on a list or a string, so `[]` gives "Missing required field: title" or "Missing ad_id", while `null` fails with a 500. JSON arrays, objects and floats as field values are not modelled either; the backend stores them as given.
- `ObjectIds.Parse`: the check is the documented 24-hex-digit string form. Other spellings that `bytes.fromhex` might tolerate inside a 24-character string are not modelled.
- `Analytics.GetStats`: `ctr` is the exact rational `clicks × 100 / impressions`. The float rounding by `round(..., 2)` is left out.
- Timestamps: `created_at` and the event timestamps come from the clock and are a parameter. Their ISO/RFC formatting is not modelled.
- `_id`: the routes return the `_id` field as a duplicate of `ad_id`, and the model does not carry it.
- `loadStats` and the periodic refresh timers of the portal: these copy server fields into the DOM and re-run loads, and they are left out. DOM rendering, `escapeHtml`, `toLocaleString` and the modal handlers are left out too.
- `AdminPortal.TruncateUrl`: lengths are counted in characters. JavaScript counts UTF-16 code units, so the two differ only for characters outside the Basic Multilingual Plane.
- Android platform code: view construction, Glide image loading, `Intent`/`Toast` (a failed link opening shows a toast), Compose layout, Retrofit/Gson wiring, and threading are left out. Callbacks are input events and outgoing calls are a trace.
- The `Int`/`String` id clash: `Ad.kt` and `AnalyticsRequest` declare `ad_id: Int`, and the backend serves strings. Gson decode failures are not modelled. A served ad reaches the SDK through an abstract `decode` function.
- `AdView.Deliver`: the asynchronous interleaving of callbacks is reduced to separate events, applied in the order they arrive.
- `AdminPortal.LoadAds`: a served `link_url` is taken to be a string. The backend checks only that the key is present, so a stored `link_url` can be null or a number. `truncateUrl` then throws and the catch shows "Error loading ads" for the whole table, while the model shows rows.
- `AdsRoutes.CreateAd`: BSON encoding limits are not modelled. `insert_one` BSON-encodes the record, so a number outside the signed 64-bit range raises `OverflowError`, and a record over 16 MiB raises `DocumentTooLarge`. `create_ad` catches neither, so the source answers 500 and stores nothing, where the model answers 201 and appends the record. `Num` is an unbounded integer.
- `AdminPortal.OpenEditModal`: a served ad is typed with string text fields and a boolean `active`. The backend checks only that the keys are present, so a stored field can be null, a number, or `active: "false"`. The browser's `value` setter turns null into '' and other values into their text, and `checked` follows JavaScript truthiness, so `"false"` ticks the box. None of these coercions is modelled.
- `AdminPortal.EditRoundTrip`: "re-sends the same fields" holds for ads whose fields are strings and whose `active` is a boolean. For other stored values the coercions above apply: a stored `active: "false"` is re-sent as `true`, and a null title as `""`.

=== FILE: ad_manager.dfy ===
/** The Android SDK's network client: how the outcome of the random-ad request
    becomes exactly one of the two callbacks, and what the fire-and-forget
    tracking calls send. Retrofit, Gson and the asynchronous `enqueue` are
    not modelled; the outcome of a request arrives as a value. */
module AdManager {
  import opened Values

  /** `Ad.kt`: the record the SDK decodes a served ad into. */
  datatype SdkAd = SdkAd(
    adId: Id,
    title: string,
    description: string,
    imageUrl: string,
    linkUrl: string,
    location: Option<string>,
    active: bool,
    impressions: int,
    clicks: int)

  /** `AdResponse`: the decoded body of a successful random-ad reply. */
  datatype AdResponse = AdResponse(status: string, data: SdkAd)

  /** How the random-ad request ended: an HTTP response with its status code
      and decoded body (absent for non-2xx replies and empty bodies), or a
      transport failure with the throwable's message, which may be null. */
  datatype FetchOutcome =
    | Response(code: int, body: Option<AdResponse>)
    | TransportFailure(message: Option<string>)

  /** The callback `fetchRandomAd` invokes; it invokes exactly one, once. */
  datatype Callback = OnSuccess(ad: SdkAd) | OnError(message: string)

  /** Retrofit's `isSuccessful`: a status code in [200, 300). */
  predicate IsSuccessful(code: int) {
    200 <= code < 300
  }

  function DigitChar(d: nat): (c: char)
    requires d < 10
    ensures '0' <= c <= '9'
  {
    ('0' as int + d) as char
  }

  /** The decimal digits of a natural number, most significant first. */
  function NatToString(n: nat): (s: string)
    ensures |s| > 0 && forall i :: 0 <= i < |s| ==> '0' <= s[i] <= '9'
  {
    if n < 10 then [DigitChar(n)] else NatToString(n / 10) + [DigitChar(n % 10)]
  }

  /** The number a string of decimal digits denotes. */
  function DigitsValue(s: string): nat
    requires forall i :: 0 <= i < |s| ==> '0' <= s[i] <= '9'
  {
    if s == [] then 0
    else DigitsValue(s[..|s| - 1]) * 10 + (s[|s| - 1] as int - '0' as int)
  }

  /** `NatToString` writes the decimal representation: reading its digits
      back gives the number. */
  lemma {:induction false} NatToStringValue(n: nat)
    ensures DigitsValue(NatToString(n)) == n
  {
    if n >= 10 {
      var s := NatToString(n);
      assert s[..|s| - 1] == NatToString(n / 10);
      NatToStringValue(n / 10);
    }
  }

  /** Kotlin's `Int.toString()`. */
  function IntToString(n: int): string {
    if n < 0 then "-" + NatToString(-n) else NatToString(n)
  }

  /** Kotlin's `"${x}"` on a nullable string. */
  function Interpolate(s: Option<string>): string {
    if s.Some? then s.value else "null"
  }

  /** `fetchRandomAd`: success exactly when the response is successful and
      carries a body; any other response reports its status code, and a
      transport failure reports its message. */
  function FetchRandomAd(o: FetchOutcome): (c: Callback)
    ensures c.OnSuccess? <==> o.Response? && IsSuccessful(o.code) && o.body.Some?
    ensures c.OnSuccess? ==> c.ad == o.body.value.data
    ensures o.Response? && c.OnError? ==> c.message == "Failed to fetch ad: " + IntToString(o.code)
    ensures o.TransportFailure? ==> c.message == "Network error: " + Interpolate(o.message)
  {
    match o
    case Response(code, body) =>
      if IsSuccessful(code) && body.Some? then OnSuccess(body.value.data)
      else OnError("Failed to fetch ad: " + IntToString(code))
    case TransportFailure(message) => OnError("Network error: " + Interpolate(message))
  }

  /** A 404 reply, such as the backend's answer when no ad is active, reaches
      the caller as the error "Failed to fetch ad: 404". */
  lemma NotFoundMessage(body: Option<AdResponse>)
    ensures FetchRandomAd(Response(404, body)) == OnError("Failed to fetch ad: 404")
  {
    assert NatToString(4) == "4";
    assert NatToString(40) == "40";
    assert NatToString(404) == "404";
  }

  /** A successful response without a body is reported as an error carrying
      the success code, not as a success. */
  lemma EmptySuccessIsError(code: int)
    requires IsSuccessful(code)
    ensures FetchRandomAd(Response(code, None)).OnError?
  {
  }

  /** `AnalyticsRequest`: the body of a tracking call. */
  datatype AnalyticsRequest = AnalyticsRequest(adId: Id, location: Option<string>)

  datatype Endpoint = ImpressionEndpoint | ClickEndpoint

  /** A tracking request as it leaves the SDK; its outcome is discarded. */
  datatype TrackCall = TrackCall(endpoint: Endpoint, request: AnalyticsRequest)

  /** `trackImpression(adId)`. */
  function TrackImpression(adId: Id): (t: TrackCall)
    ensures t.endpoint == ImpressionEndpoint
    ensures t.request.adId == adId && t.request.location.None?
  {
    TrackCall(ImpressionEndpoint, AnalyticsRequest(adId, None))
  }

  /** `trackClick(adId)`. */
  function TrackClick(adId: Id): (t: TrackCall)
    ensures t.endpoint == ClickEndpoint
    ensures t.request.adId == adId && t.request.location.None?
  {
    TrackCall(ClickEndpoint, AnalyticsRequest(adId, None))
  }

  /** The JSON Gson writes for a request: null fields are left out, so a
      request without a location carries `ad_id` alone. */
  function RequestJson(r: AnalyticsRequest): (b: Body)
    ensures "ad_id" in b && b["ad_id"] == Str(r.adId)
    ensures "location" in b <==> r.location.Some?
    ensures r.location.Some? ==> b["location"] == Str(r.location.value)
    ensures b.Keys <= {"ad_id", "location"}
  {
    if r.location.Some? then map["ad_id" := Str(r.adId), "location" := Str(r.location.value)]
    else map["ad_id" := Str(r.adId)]
  }
}

=== FILE: ad_model.dfy ===
/** The backend's `Ad` record: its constructor defaults, its conversion to a
    document and its construction from a request body. */
module AdModel {
  import opened Values

  /** One advertisement. Every field a client supplies is kept as the JSON
      value it arrived as, since the record copies the body without checking
      types; `createdAt` is the BSON datetime, `impressions` and `clicks` the
      counters. */
  datatype Ad = Ad(
    adId: Value,
    title: Value,
    description: Value,
    imageUrl: Value,
    linkUrl: Value,
    location: Value,
    active: Value,
    createdAt: int,
    impressions: int,
    clicks: int)

  /** `Ad(title, description, image_url, link_url, location=None,
      active=True, ad_id=None)`; `now` stands for `datetime.utcnow()`. */
  function NewAd(now: int, title: Value, description: Value, imageUrl: Value, linkUrl: Value,
                 location: Value := Null, active: Value := Bool(true), adId: Value := Null): (a: Ad)
    ensures a.impressions == 0 && a.clicks == 0
    ensures a.createdAt == now
    ensures a.title == title && a.description == description
    ensures a.imageUrl == imageUrl && a.linkUrl == linkUrl
    ensures a.location == location && a.active == active && a.adId == adId
  {
    Ad(adId, title, description, imageUrl, linkUrl, location, active, now, 0, 0)
  }

  /** The ten keys of a document produced by `to_dict`. */
  const DocKeys: set<string> :=
    {"ad_id", "title", "description", "image_url", "link_url",
     "location", "active", "created_at", "impressions", "clicks"}

  /** `to_dict`: the document the backend stores and serves. */
  function ToDict(a: Ad): (d: Body)
    ensures d.Keys == DocKeys && |d| == 10
    ensures d["ad_id"] == a.adId && d["title"] == a.title
    ensures d["description"] == a.description
    ensures d["image_url"] == a.imageUrl && d["link_url"] == a.linkUrl
    ensures d["location"] == a.location && d["active"] == a.active
    ensures d["created_at"] == Date(a.createdAt)
    ensures d["impressions"] == Num(a.impressions) && d["clicks"] == Num(a.clicks)
  {
    var d := map[
      "ad_id" := a.adId, "title" := a.title, "description" := a.description,
      "image_url" := a.imageUrl, "link_url" := a.linkUrl, "location" := a.location,
      "active" := a.active, "created_at" := Date(a.createdAt),
      "impressions" := Num(a.impressions), "clicks" := Num(a.clicks)];
    assert d.Keys == DocKeys;
    d
  }

  /** `from_dict`: never fails. An absent field becomes None, except `active`,
      which defaults to true; the counters and the timestamp are those of a
      fresh record whatever the body says. */
  function FromDict(now: int, d: Body): (a: Ad)
    ensures a.impressions == 0 && a.clicks == 0 && a.createdAt == now
    ensures "active" in d ==> a.active == d["active"]
    ensures "active" !in d ==> a.active == Bool(true)
    ensures "location" in d ==> a.location == d["location"]
    ensures "location" !in d ==> a.location == Null
    ensures "ad_id" in d ==> a.adId == d["ad_id"]
    ensures "ad_id" !in d ==> a.adId == Null
    ensures "title" in d ==> a.title == d["title"]
    ensures "title" !in d ==> a.title == Null
    ensures "description" in d ==> a.description == d["description"]
    ensures "description" !in d ==> a.description == Null
    ensures "image_url" in d ==> a.imageUrl == d["image_url"]
    ensures "image_url" !in d ==> a.imageUrl == Null
    ensures "link_url" in d ==> a.linkUrl == d["link_url"]
    ensures "link_url" !in d ==> a.linkUrl == Null
  {
    NewAd(now, Get(d, "title"), Get(d, "description"), Get(d, "image_url"), Get(d, "link_url"),
          location := Get(d, "location"), active := Get(d, "active", Bool(true)),
          adId := Get(d, "ad_id"))
  }

  /** Reading back a document keeps every client-supplied field and resets
      the counters and the timestamp. */
  lemma FromDictToDict(a: Ad, now: int)
    ensures FromDict(now, ToDict(a)) == a.(createdAt := now, impressions := 0, clicks := 0)
  {
  }

  /** A record whose counters are already zero and whose timestamp is `now`
      survives the round trip unchanged, so for freshly created records
      `from_dict` is a left inverse of `to_dict`. */
  lemma FreshRoundTrip(a: Ad, now: int)
    requires a.impressions == 0 && a.clicks == 0 && a.createdAt == now
    ensures FromDict(now, ToDict(a)) == a
  {
    FromDictToDict(a, now);
  }
}

=== FILE: ad_view.dfy ===
/** The SDK's `AdView` widget as a state machine. Its state is whether an
    `AdManager` was given, the ad currently shown, the two text views and the
    image view; every request or navigation it starts is appended to a trace
    of outgoing calls. Loading an ad is two events: `LoadAd` starts the
    request, and `Deliver` runs the callback when the outcome arrives. */
module AdView {
  import opened Values
  import opened AdManager

  /** What the image view shows: nothing yet, the grey error colour, or the
      image Glide loads from a URL. */
  datatype Image = Blank | ErrorColour | Remote(url: string)

  /** A call that leaves the widget: the random-ad request, a tracking call,
      or an intent opening a link. */
  datatype Outgoing = FetchRandom | Track(call: TrackCall) | OpenLink(url: string)

  datatype ViewState = ViewState(
    hasManager: bool,
    currentAd: Option<SdkAd>,
    titleText: string,
    descriptionText: string,
    image: Image,
    trace: seq<Outgoing>)

  /** A widget just constructed: no manager, no ad, empty views. */
  const Initial: ViewState := ViewState(false, None, "", "", Blank, [])

  /** `initialize(adManager)`. */
  function Initialize(s: ViewState): (t: ViewState)
    ensures t.hasManager
    ensures t.currentAd == s.currentAd && t.trace == s.trace
    ensures t.titleText == s.titleText && t.descriptionText == s.descriptionText && t.image == s.image
  {
    s.(hasManager := true)
  }

  /** `showError(message)`: the title reads "Ad Error", the description the
      message, and the image turns grey; the current ad is kept. */
  function ShowError(s: ViewState, message: string): (t: ViewState)
    ensures t.titleText == "Ad Error" && t.descriptionText == message && t.image == ErrorColour
    ensures t.currentAd == s.currentAd && t.hasManager == s.hasManager && t.trace == s.trace
  {
    s.(titleText := "Ad Error", descriptionText := message, image := ErrorColour)
  }

  /** `displayAd(ad)`. */
  function Display(s: ViewState, ad: SdkAd): (t: ViewState)
    ensures t.titleText == ad.title && t.descriptionText == ad.description
    ensures t.image == Remote(ad.imageUrl)
    ensures t.currentAd == s.currentAd && t.hasManager == s.hasManager && t.trace == s.trace
  {
    s.(titleText := ad.title, descriptionText := ad.description, image := Remote(ad.imageUrl))
  }

  /** `loadAd()`: without a manager, show "AdManager not initialized" and send
      nothing; with one, send the random-ad request. */
  function LoadAd(s: ViewState): (t: ViewState)
    ensures !s.hasManager ==> t == ShowError(s, "AdManager not initialized")
    ensures s.hasManager ==> t == s.(trace := s.trace + [FetchRandom])
  {
    if s.hasManager then s.(trace := s.trace + [FetchRandom])
    else ShowError(s, "AdManager not initialized")
  }

  /** The callbacks `loadAd` hands to `fetchRandomAd`, run on the outcome of
      the request. On success the ad becomes current, is displayed, and one
      impression is tracked for it; on error the message is shown and the
      current ad stays as it was. */
  function Deliver(s: ViewState, o: FetchOutcome): (t: ViewState)
    ensures FetchRandomAd(o).OnSuccess? ==>
              var ad := FetchRandomAd(o).ad;
              && t.currentAd == Some(ad)
              && t.titleText == ad.title && t.descriptionText == ad.description
              && t.image == Remote(ad.imageUrl)
              && t.trace == s.trace + (if s.hasManager then [Track(TrackImpression(ad.adId))] else [])
    ensures FetchRandomAd(o).OnError? ==>
              t == ShowError(s, FetchRandomAd(o).message)
    ensures t.hasManager == s.hasManager
  {
    match FetchRandomAd(o)
    case OnSuccess(ad) =>
      var shown := Display(s.(currentAd := Some(ad)), ad);
      shown.(trace := s.trace + (if s.hasManager then [Track(TrackImpression(ad.adId))] else []))
    case OnError(message) => ShowError(s, message)
  }

  /** The click listener: with no current ad, nothing; otherwise track a
      click for it (through the manager, when there is one) and then open
      its link. */
  function Click(s: ViewState): (t: ViewState)
    ensures s.currentAd.None? ==> t == s
    ensures s.currentAd.Some? ==>
              var ad := s.currentAd.value;
              t == s.(trace := s.trace + (if s.hasManager then [Track(TrackClick(ad.adId))] else [])
                                       + [OpenLink(ad.linkUrl)])
  {
    match s.currentAd
    case None => s
    case Some(ad) =>
      s.(trace := s.trace + (if s.hasManager then [Track(TrackClick(ad.adId))] else [])
                          + [OpenLink(ad.linkUrl)])
  }

  /** The calls one event added to the trace. */
  function Added(before: ViewState, after: ViewState): seq<Outgoing>
    requires |before.trace| <= |after.trace|
  {
    after.trace[|before.trace|..]
  }

  predicate SendsImpression(calls: seq<Outgoing>) {
    exists i :: 0 <= i < |calls| && calls[i].Track? && calls[i].call.endpoint == ImpressionEndpoint
  }

  predicate SendsClick(calls: seq<Outgoing>) {
    exists i :: 0 <= i < |calls| && calls[i].Track? && calls[i].call.endpoint == ClickEndpoint
  }

  /** Before `initialize`, loading shows the error and sends no request. */
  lemma LoadBeforeInitialize()
    ensures var t := LoadAd(Initial);
            && t.titleText == "Ad Error" && t.descriptionText == "AdManager not initialized"
            && t.trace == [] && t.currentAd.None?
  {
  }

  /** After `initialize`, loading sends exactly one random-ad request and
      leaves the views and the current ad as they were until it answers. */
  lemma LoadAfterInitialize(s: ViewState)
    ensures var t := LoadAd(Initialize(s));
            && t.trace == s.trace + [FetchRandom]
            && t.currentAd == s.currentAd
            && t.titleText == s.titleText && t.descriptionText == s.descriptionText
            && t.image == s.image
  {
  }

  /** A load on an initialized widget whose request succeeds sends exactly the
      request and then one impression for the ad received, and shows that
      ad. */
  lemma SuccessfulLoad(s: ViewState, o: FetchOutcome)
    requires s.hasManager && FetchRandomAd(o).OnSuccess?
    ensures var t := Deliver(LoadAd(s), o);
            var ad := o.body.value.data;
            && t.currentAd == Some(ad)
            && t.titleText == ad.title && t.descriptionText == ad.description
            && t.trace == s.trace + [FetchRandom, Track(TrackImpression(ad.adId))]
  {
    var ad := o.body.value.data;
    assert s.trace + [FetchRandom] + [Track(TrackImpression(ad.adId))]
        == s.trace + [FetchRandom, Track(TrackImpression(ad.adId))];
  }

  /** A load whose request fails shows the error, keeps the previous ad, and
      sends nothing but the request; a click afterwards still tracks and opens
      the previously loaded ad. */
  lemma FailedLoadKeepsPreviousAd(s: ViewState, o: FetchOutcome)
    requires s.hasManager && s.currentAd.Some? && FetchRandomAd(o).OnError?
    ensures var t := Deliver(LoadAd(s), o);
            var ad := s.currentAd.value;
            && t.titleText == "Ad Error" && t.descriptionText == FetchRandomAd(o).message
            && t.currentAd == s.currentAd
            && t.trace == s.trace + [FetchRandom]
            && Click(t).trace == s.trace + [FetchRandom, Track(TrackClick(ad.adId)), OpenLink(ad.linkUrl)]
  {
    var ad := s.currentAd.value;
    assert s.trace + [FetchRandom] + [Track(TrackClick(ad.adId))] + [OpenLink(ad.linkUrl)]
        == s.trace + [FetchRandom, Track(TrackClick(ad.adId)), OpenLink(ad.linkUrl)];
  }

  /** A click never sends an impression, and neither part of a load sends a
      click. */
  lemma ClicksAndLoadsDoNotMix(s: ViewState, o: FetchOutcome)
    ensures !SendsImpression(Added(s, Click(s)))
    ensures !SendsClick(Added(s, LoadAd(s)))
    ensures !SendsClick(Added(s, Deliver(s, o)))
  {
    var c := Added(s, Click(s));
    if s.currentAd.Some? {
      var ad := s.currentAd.value;
      assert c == (if s.hasManager then [Track(TrackClick(ad.adId))] else []) + [OpenLink(ad.linkUrl)];
    } else {
      assert c == [];
    }
    var l := Added(s, LoadAd(s));
    assert l == [] || l == [FetchRandom];
    var d := Added(s, Deliver(s, o));
    if FetchRandomAd(o).OnSuccess? {
      var ad := FetchRandomAd(o).ad;
      assert d == (if s.hasManager then [Track(TrackImpression(ad.adId))] else []);
    } else {
      assert d == [];
    }
  }
}

=== FILE: admin_portal.dfy ===
/** The decision logic of the admin portal's handlers: what payload a form
    becomes, whether a request is sent at all, what message the user sees,
    and what the ad table shows. `isValidUrl` depends on the browser's URL
    parser and is a parameter `validUrl` throughout. */
module AdminPortal {
  import opened Values

  // ---------------------------------------------------------------------
  // String.prototype.trim

  /** The characters `trim` removes: ECMAScript's WhiteSpace and
      LineTerminator code points. */
  predicate IsJsSpace(c: char) {
    var n := c as int;
    || n == 0x09 || n == 0x0A || n == 0x0B || n == 0x0C || n == 0x0D
    || n == 0x20 || n == 0xA0 || n == 0x1680 || (0x2000 <= n <= 0x200A)
    || n == 0x2028 || n == 0x2029 || n == 0x202F || n == 0x205F
    || n == 0x3000 || n == 0xFEFF
  }

  predicate SpaceBetween(s: string, lo: int, hi: int)
    requires 0 <= lo <= hi <= |s|
  {
    forall k :: lo <= k < hi ==> IsJsSpace(s[k])
  }

  /** Neither begins nor ends with a character `trim` removes. */
  predicate Tight(s: string) {
    s == [] || (!IsJsSpace(s[0]) && !IsJsSpace(s[|s| - 1]))
  }

  function TrimStart(s: string): (r: string)
    ensures |r| <= |s| && r == s[|s| - |r|..]
    ensures SpaceBetween(s, 0, |s| - |r|)
    ensures r == [] || !IsJsSpace(r[0])
  {
    if s != [] && IsJsSpace(s[0]) then TrimStart(s[1..]) else s
  }

  function TrimEnd(s: string): (r: string)
    ensures |r| <= |s| && r == s[..|r|]
    ensures SpaceBetween(s, |r|, |s|)
    ensures r == [] || !IsJsSpace(r[|r| - 1])
  {
    if s != [] && IsJsSpace(s[|s| - 1]) then TrimEnd(s[..|s| - 1]) else s
  }

  /** `s.trim()`. */
  function Trim(s: string): (r: string)
    ensures Tight(r)
    ensures |r| <= |s|
  {
    TrimEnd(TrimStart(s))
  }

  lemma TrimStartCut(s: string, n: nat)
    requires n <= |s| && SpaceBetween(s, 0, n)
    requires n == |s| || !IsJsSpace(s[n])
    ensures TrimStart(s) == s[n..]
  {
    var m := |s| - |TrimStart(s)|;
    assert m == n;
  }

  lemma TrimEndCut(s: string, n: nat)
    requires n <= |s| && SpaceBetween(s, n, |s|)
    requires n == 0 || !IsJsSpace(s[n - 1])
    ensures TrimEnd(s) == s[..n]
  {
    var m := |TrimEnd(s)|;
    assert m == n;
  }

  lemma SpacesConcat(p: string, q: string)
    requires SpaceBetween(p, 0, |p|) && SpaceBetween(q, 0, |q|)
    ensures SpaceBetween(p + q, 0, |p + q|)
  {
    var s := p + q;
    forall k | 0 <= k < |s| ensures IsJsSpace(s[k]) {
      if k < |p| { assert s[k] == p[k]; } else { assert s[k] == q[k - |p|]; }
    }
  }

  lemma TrimStartWrapped(p: string, t: string)
    requires SpaceBetween(p, 0, |p|) && t != [] && !IsJsSpace(t[0])
    ensures TrimStart(p + t) == t
  {
    var s := p + t;
    assert SpaceBetween(s, 0, |p|) by {
      forall k | 0 <= k < |p| ensures IsJsSpace(s[k]) { assert s[k] == p[k]; }
    }
    assert s[|p|] == t[0];
    TrimStartCut(s, |p|);
    assert s[|p|..] == t;
  }

  lemma TrimEndWrapped(r: string, q: string)
    requires r != [] && !IsJsSpace(r[|r| - 1]) && SpaceBetween(q, 0, |q|)
    ensures TrimEnd(r + q) == r
  {
    var t := r + q;
    assert SpaceBetween(t, |r|, |t|) by {
      forall k | |r| <= k < |t| ensures IsJsSpace(t[k]) { assert t[k] == q[k - |r|]; }
    }
    assert t[|r| - 1] == r[|r| - 1];
    TrimEndCut(t, |r|);
    assert t[..|r|] == r;
  }

  /** `trim` removes exactly the surrounding spaces: whatever is wrapped in
      spaces, if it neither begins nor ends with one, is what `trim` gives
      back. Together with `Trim`'s own contract this characterises it. */
  lemma TrimUnwraps(p: string, r: string, q: string)
    requires SpaceBetween(p, 0, |p|) && SpaceBetween(q, 0, |q|)
    requires Tight(r)
    ensures Trim(p + r + q) == r
  {
    var s := p + r + q;
    if r == [] {
      assert s == p + q;
      SpacesConcat(p, q);
      TrimStartCut(s, |s|);
    } else {
      assert s == p + (r + q);
      TrimStartWrapped(p, r + q);
      TrimEndWrapped(r, q);
    }
  }

  /** Trimming twice is trimming once. */
  lemma TrimIdempotent(s: string)
    ensures Trim(Trim(s)) == Trim(s)
  {
    var r := Trim(s);
    TrimStartCut(r, 0);
    TrimEndCut(r, |r|);
  }

  // ---------------------------------------------------------------------
  // truncateUrl

  /** `truncateUrl(url, maxLength = 40)`: the URL itself when it fits,
      otherwise its first `maxLength` characters followed by "...". */
  function TruncateUrl(url: string, maxLength: nat := 40): (r: string)
    ensures |url| <= maxLength ==> r == url
    ensures |url| > maxLength ==> |r| == maxLength + 3 && r[..maxLength] == url[..maxLength]
                                  && r[maxLength..] == "..."
    ensures |r| <= maxLength + 3
  {
    if |url| <= maxLength then url else url[..maxLength] + "..."
  }

  /** Truncating an already truncated URL changes nothing. */
  lemma TruncateIdempotent(url: string, maxLength: nat)
    ensures TruncateUrl(TruncateUrl(url, maxLength), maxLength) == TruncateUrl(url, maxLength)
  {
    var r := TruncateUrl(url, maxLength);
    if |url| > maxLength {
      assert r[..maxLength] + "..." == r;
    }
  }

  // ---------------------------------------------------------------------
  // Form payloads (handleCreateAd, handleEditAd)

  /** The raw values of the create or edit form's inputs. */
  datatype Form = Form(title: string, description: string, imageUrl: string, linkUrl: string,
                       location: string, active: bool)

  /** The JSON object the form is submitted as; a None location is sent as
      `null`. */
  datatype Payload = Payload(title: string, description: string, imageUrl: string, linkUrl: string,
                             location: Option<string>, active: bool)

  /** `value.trim()` on every text input, and `location.trim() || null`. */
  function BuildPayload(f: Form): (p: Payload)
    ensures p.title == Trim(f.title) && p.description == Trim(f.description)
    ensures p.imageUrl == Trim(f.imageUrl) && p.linkUrl == Trim(f.linkUrl)
    ensures p.location.None? <==> Trim(f.location) == ""
    ensures p.location.Some? ==> p.location.value == Trim(f.location)
    ensures p.active == f.active
  {
    var loc := Trim(f.location);
    Payload(Trim(f.title), Trim(f.description), Trim(f.imageUrl), Trim(f.linkUrl),
            if loc == "" then None else Some(loc), f.active)
  }

  /** A payload as the form builds it: no text field has surrounding spaces,
      and the location is either null or a non-empty string. */
  predicate Clean(p: Payload) {
    && Trim(p.title) == p.title && Trim(p.description) == p.description
    && Trim(p.imageUrl) == p.imageUrl && Trim(p.linkUrl) == p.linkUrl
    && (p.location.Some? ==> p.location.value != "" && Trim(p.location.value) == p.location.value)
  }

  lemma PayloadIsClean(f: Form)
    ensures Clean(BuildPayload(f))
  {
    TrimIdempotent(f.title);
    TrimIdempotent(f.description);
    TrimIdempotent(f.imageUrl);
    TrimIdempotent(f.linkUrl);
    TrimIdempotent(f.location);
  }

  // ---------------------------------------------------------------------
  // Messages

  datatype Tone = Success | Failure

  /** The text shown in the form's message area or in an alert. */
  datatype Notice = Notice(tone: Tone, text: string)

  datatype Op = Create | Update | Delete

  /** What came back from `fetch(...).json()`: a `status` and a `message`
      that may be missing, or an exception (network failure or a body that
      is not JSON). */
  datatype Answer = Answered(status: string, message: Option<string>) | NetworkError

  predicate Succeeded(a: Answer) {
    a.Answered? && a.status == "success"
  }

  function SuccessText(op: Op): string {
    match op
    case Create => "✅ Advertisement created successfully!"
    case Update => "✅ Advertisement updated successfully!"
    case Delete => "✅ Advertisement deleted successfully!"
  }

  function FallbackText(op: Op): string {
    match op
    case Create => "Failed to create ad"
    case Update => "Failed to update ad"
    case Delete => "Failed to delete ad"
  }

  const NetworkErrorText: string := "❌ Network error. Please try again."

  /** `data.message || fallback`: a missing, null or empty message is falsy. */
  function ServerMessage(message: Option<string>, fallback: string): string {
    if message.Some? && message.value != "" then message.value else fallback
  }

  /** The message a finished request shows: the success text, "❌ " and the
      server's message (or the operation's fallback), or the network error. */
  function Feedback(op: Op, a: Answer): (n: Notice)
    ensures n.tone == Success <==> Succeeded(a)
    ensures Succeeded(a) ==> n.text == SuccessText(op)
    ensures a.Answered? && !Succeeded(a) ==> n.text == "❌ " + ServerMessage(a.message, FallbackText(op))
    ensures a.NetworkError? ==> n.text == NetworkErrorText
  {
    match a
    case NetworkError => Notice(Failure, NetworkErrorText)
    case Answered(status, message) =>
      if status == "success" then Notice(Success, SuccessText(op))
      else Notice(Failure, "❌ " + ServerMessage(message, FallbackText(op)))
  }

  /** Every failure message names a cause after its "❌ " mark: the server's
      non-empty message when there is one, otherwise a fixed text. */
  lemma FailureTextsNameACause(op: Op, a: Answer)
    requires !Succeeded(a)
    ensures var t := Feedback(op, a).text;
            |t| > 2 && t[..2] == "❌ "
            && (a.Answered? && a.message.Some? && a.message.value != "" ==> t[2..] == a.message.value)
  {
    var t := Feedback(op, a).text;
    if a.NetworkError? {
      assert t == NetworkErrorText;
    } else {
      var m := ServerMessage(a.message, FallbackText(op));
      assert t == "❌ " + m;
      assert |m| > 0;
      assert t[2..] == m;
    }
  }

  // ---------------------------------------------------------------------
  // Submitting (handleCreateAd, handleEditAd) and deleting (deleteAd)

  /** The URL check before any request: the image URL first, then the link
      URL; None when both pass. */
  function UrlError(p: Payload, validUrl: string -> bool): (m: Option<string>)
    ensures m.None? <==> validUrl(p.imageUrl) && validUrl(p.linkUrl)
    ensures !validUrl(p.imageUrl) ==> m == Some("Invalid image URL")
    ensures validUrl(p.imageUrl) && !validUrl(p.linkUrl) ==> m == Some("Invalid link URL")
  {
    if !validUrl(p.imageUrl) then Some("Invalid image URL")
    else if !validUrl(p.linkUrl) then Some("Invalid link URL")
    else None
  }

  datatype Request = Post(payload: Payload) | Put(id: Id, payload: Payload) | Remove(id: Id)

  /** What a handler did: the request it sent, if any; the message it showed,
      if any; and whether it scheduled a reload of the statistics and the
      ad list. */
  datatype Outcome = Outcome(sent: Option<Request>, notice: Option<Notice>, reload: bool)

  /** The shared body of `handleCreateAd` and `handleEditAd`: build the
      payload, stop with the field's message if a URL is invalid, otherwise
      send `request(payload)` and report `answer`. */
  function Submit(op: Op, f: Form, validUrl: string -> bool, request: Payload -> Request,
                  a: Answer): (r: Outcome)
    ensures r.sent.Some? <==> validUrl(Trim(f.imageUrl)) && validUrl(Trim(f.linkUrl))
    ensures !validUrl(Trim(f.imageUrl)) ==>
              r.notice == Some(Notice(Failure, "Invalid image URL")) && !r.reload
    ensures validUrl(Trim(f.imageUrl)) && !validUrl(Trim(f.linkUrl)) ==>
              r.notice == Some(Notice(Failure, "Invalid link URL")) && !r.reload
    ensures r.sent.Some? ==>
              r.sent.value == request(BuildPayload(f)) && r.notice == Some(Feedback(op, a))
              && (r.reload <==> Succeeded(a))
  {
    var p := BuildPayload(f);
    match UrlError(p, validUrl)
    case Some(m) => Outcome(None, Some(Notice(Failure, m)), false)
    case None => Outcome(Some(request(p)), Some(Feedback(op, a)), Succeeded(a))
  }

  /** `handleCreateAd`: a POST of the trimmed form. */
  function HandleCreate(f: Form, validUrl: string -> bool, a: Answer): (r: Outcome)
    ensures r.sent.Some? ==> r.sent.value == Post(BuildPayload(f))
    ensures r.sent.None? ==> !r.reload && r.notice.Some? && r.notice.value.tone == Failure
    ensures r.sent.Some? ==> r.notice == Some(Feedback(Create, a))
  {
    Submit(Create, f, validUrl, p => Post(p), a)
  }

  /** `handleEditAd`: a PUT of the trimmed form to the ad being edited. */
  function HandleEdit(adId: Id, f: Form, validUrl: string -> bool, a: Answer): (r: Outcome)
    ensures r.sent.Some? ==> r.sent.value == Put(adId, BuildPayload(f))
    ensures r.sent.None? ==> !r.reload && r.notice.Some? && r.notice.value.tone == Failure
    ensures r.sent.Some? ==> r.notice == Some(Feedback(Update, a))
  {
    Submit(Update, f, validUrl, p => Put(adId, p), a)
  }

  /** `deleteAd`: nothing at all unless the user confirms; otherwise a DELETE
      and an alert with the outcome, reloading at once on success. */
  function DeleteAd(confirmed: bool, adId: Id, a: Answer): (r: Outcome)
    ensures !confirmed ==> r == Outcome(None, None, false)
    ensures confirmed ==> r.sent == Some(Remove(adId)) && r.notice == Some(Feedback(Delete, a))
                          && (r.reload <==> Succeeded(a))
  {
    if !confirmed then Outcome(None, None, false)
    else Outcome(Some(Remove(adId)), Some(Feedback(Delete, a)), Succeeded(a))
  }

  /** An invalid image URL is reported even when the link URL is invalid too,
      and no request goes out whatever the server would have answered. */
  lemma ImageUrlCheckedFirst(f: Form, validUrl: string -> bool, a: Answer, b: Answer)
    ensures !validUrl(Trim(f.imageUrl)) ==>
              && HandleCreate(f, validUrl, a) == HandleCreate(f, validUrl, b)
              && HandleCreate(f, validUrl, a) == Outcome(None, Some(Notice(Failure, "Invalid image URL")), false)
  {
  }

  // ---------------------------------------------------------------------
  // Loading an ad into the edit form (openEditModal)

  /** An ad as the portal receives it from the backend. */
  datatype ServedAd = ServedAd(adId: Id, title: string, description: string, imageUrl: string,
                               linkUrl: string, location: Option<string>, active: bool,
                               impressions: int, clicks: int)

  /** What `GET /api/ads/{id}` came back with. */
  datatype AdAnswer = AdAnswered(status: string, ad: ServedAd) | AdNetworkError

  datatype EditLoad = ShowModal(adId: Id, form: Form) | AlertUser(text: string)

  /** `ad.location || ''`. */
  function LocationInput(l: Option<string>): string {
    if l.Some? then l.value else ""
  }

  /** `openEditModal`: fill the edit form from the served ad, or alert. */
  function OpenEditModal(a: AdAnswer): (r: EditLoad)
    ensures r.ShowModal? <==> a.AdAnswered? && a.status == "success"
    ensures r.ShowModal? ==>
              && r.adId == a.ad.adId && r.form.title == a.ad.title
              && r.form.description == a.ad.description
              && r.form.imageUrl == a.ad.imageUrl && r.form.linkUrl == a.ad.linkUrl
              && r.form.active == a.ad.active
              && (a.ad.location.None? ==> r.form.location == "")
              && (a.ad.location.Some? ==> r.form.location == a.ad.location.value)
    ensures a.AdAnswered? && !r.ShowModal? ==> r == AlertUser("Failed to load ad data")
    ensures a.AdNetworkError? ==> r == AlertUser("Error loading ad data")
  {
    match a
    case AdNetworkError => AlertUser("Error loading ad data")
    case AdAnswered(status, ad) =>
      if status == "success" then
        ShowModal(ad.adId, Form(ad.title, ad.description, ad.imageUrl, ad.linkUrl,
                                LocationInput(ad.location), ad.active))
      else AlertUser("Failed to load ad data")
  }

  /** The payload an ad would be re-sent as, field for field. */
  function AsPayload(ad: ServedAd): Payload {
    Payload(ad.title, ad.description, ad.imageUrl, ad.linkUrl, ad.location, ad.active)
  }

  /** Opening a clean ad in the edit form and saving it unchanged sends the
      ad back as it was; in particular a null location is re-sent as null,
      not as an empty string. */
  lemma EditRoundTrip(ad: ServedAd)
    requires Clean(AsPayload(ad))
    ensures var r := OpenEditModal(AdAnswered("success", ad));
            r.ShowModal? && BuildPayload(r.form) == AsPayload(ad)
  {
    var r := OpenEditModal(AdAnswered("success", ad));
    assert Trim("") == "" by {
      assert [] + [] + [] == "";
      TrimUnwraps([], [], []);
    }
  }

  // ---------------------------------------------------------------------
  // The ad table (loadAds)

  /** One rendered row: the link column shows the truncated URL and the
      badge reads Active or Inactive. */
  datatype Row = Row(ad: ServedAd, linkText: string, badge: string)

  function RenderRow(ad: ServedAd): (r: Row)
    ensures r.ad == ad && r.linkText == TruncateUrl(ad.linkUrl)
    ensures r.badge == (if ad.active then "Active" else "Inactive")
  {
    Row(ad, TruncateUrl(ad.linkUrl), if ad.active then "Active" else "Inactive")
  }

  datatype Table = Rows(rows: seq<Row>) | Placeholder(text: string)

  /** What `GET /api/ads` came back with. */
  datatype ListAnswer = ListAnswered(status: string, ads: seq<ServedAd>) | ListNetworkError

  /** `loadAds`: rows only for a successful, non-empty list; otherwise
      "No ads found", or "Error loading ads" on an exception. */
  function LoadAds(a: ListAnswer): (t: Table)
    ensures t.Rows? <==> a.ListAnswered? && a.status == "success" && |a.ads| > 0
    ensures t.Rows? ==> |t.rows| == |a.ads|
                        && forall i :: 0 <= i < |a.ads| ==>
                                          (t.rows[i].ad == a.ads[i] && |t.rows[i].linkText| <= 43)
    ensures t.Rows? ==> forall i :: 0 <= i < |a.ads| ==> t.rows[i] == RenderRow(a.ads[i])
    ensures a.ListAnswered? && !t.Rows? ==> t == Placeholder("No ads found")
    ensures a.ListNetworkError? ==> t == Placeholder("Error loading ads")
  {
    match a
    case ListNetworkError => Placeholder("Error loading ads")
    case ListAnswered(status, ads) =>
      if status == "success" && |ads| > 0 then
        Rows(seq(|ads|, i requires 0 <= i < |ads| => RenderRow(ads[i])))
      else Placeholder("No ads found")
  }

  /** A failed list reply is indistinguishable on screen from an empty one. */
  lemma FailedListLooksEmpty(status: string, ads: seq<ServedAd>)
    requires status != "success"
    ensures LoadAds(ListAnswered(status, ads)) == LoadAds(ListAnswered("success", []))
  {
  }
}

=== FILE: ads_routes.dfy ===
/** The `/api/ads` routes of the backend as operations on the ad collection.
    The collection is a sequence of documents in MongoDB's natural (insertion)
    order, each under a distinct object id. Listing, picking at random and
    reading by id take the collection and return only a reply, so they cannot
    change it; creating returns the new collection beside its reply. */
module AdsRoutes {
  import opened Values
  import opened ObjectIds
  import opened AdModel

  /** One stored document under its `_id`. */
  datatype Entry = Entry(key: ObjectId, doc: Ad)

  type Store = seq<Entry>

  function Keys(s: Store): set<ObjectId> {
    set e | e in s :: e.key
  }

  /** MongoDB keeps `_id` unique within a collection. */
  predicate KeysDistinct(s: Store) {
    forall i, j :: 0 <= i < j < |s| ==> s[i].key != s[j].key
  }

  /** The filter `{'active': True}`: BSON equality with the boolean true, so a
      stored `"true"` string or the number 1 does not match. */
  predicate IsActive(a: Ad) {
    a.active == Bool(true)
  }

  /** A document as the routes return it: `ad_id` overwritten by `str(_id)`. */
  function Served(e: Entry): (a: Ad)
    ensures a.adId == Str(e.key)
    ensures a.(adId := e.doc.adId) == e.doc
    ensures IsActive(a) <==> IsActive(e.doc)
  {
    e.doc.(adId := Str(e.key))
  }

  /** `ads_collection.find({'active': True})`, in natural order. */
  function Active(s: Store): (r: Store)
    ensures |r| <= |s|
    ensures forall e :: e in r <==> e in s && IsActive(e.doc)
  {
    if s == [] then []
    else (if IsActive(s[0].doc) then [s[0]] else []) + Active(s[1..])
  }

  lemma DistinctSplit(s: Store)
    requires s != [] && KeysDistinct(s)
    ensures KeysDistinct(s[1..]) && s[0].key !in Keys(s[1..])
  {
    var t := s[1..];
    forall i, j | 0 <= i < j < |t| ensures t[i].key != t[j].key {
      assert t[i] == s[i + 1] && t[j] == s[j + 1];
    }
    forall e | e in t ensures e.key != s[0].key {
      var k :| 0 <= k < |t| && t[k] == e;
      assert s[k + 1] == e;
    }
  }

  lemma DistinctCons(e: Entry, rest: Store)
    requires KeysDistinct(rest) && e.key !in Keys(rest)
    ensures KeysDistinct([e] + rest)
  {
    var r := [e] + rest;
    forall i, j | 0 <= i < j < |r| ensures r[i].key != r[j].key {
      assert r[j] == rest[j - 1] && r[j] in rest;
      if i > 0 { assert r[i] == rest[i - 1]; }
    }
  }

  /** The query returns each matching document once: over a collection with
      distinct keys, the keys of the result are distinct too. */
  lemma {:induction false} ActiveKeysDistinct(s: Store)
    ensures KeysDistinct(s) ==> KeysDistinct(Active(s))
  {
    if s != [] && KeysDistinct(s) {
      DistinctSplit(s);
      ActiveKeysDistinct(s[1..]);
      var rest := Active(s[1..]);
      if IsActive(s[0].doc) {
        assert Keys(rest) <= Keys(s[1..]);
        DistinctCons(s[0], rest);
        assert Active(s) == [s[0]] + rest;
      } else {
        assert Active(s) == rest;
      }
    }
  }

  /** The payload of the list route: `count` beside the documents. */
  datatype Listing = Listing(count: nat, ads: seq<Ad>)

  /** `get_all_ads`: every active document, and only those, each with its
      `ad_id` set from its key; `count` is the number of documents returned. */
  function GetAllAds(s: Store): (r: Reply<Listing>)
    ensures r.Ok? && r.code == 200 && r.note == None
    ensures r.data.count == |r.data.ads|
    ensures r.data.count == |Active(s)|
    ensures forall a :: a in r.data.ads ==> IsActive(a) && exists e :: e in s && a == Served(e)
    ensures forall e :: e in s && IsActive(e.doc) ==> Served(e) in r.data.ads
    ensures KeysDistinct(s) ==>
              forall i, j :: 0 <= i < j < |r.data.ads| ==> r.data.ads[i].adId != r.data.ads[j].adId
  {
    var act := Active(s);
    ActiveKeysDistinct(s);
    var ads := seq(|act|, i requires 0 <= i < |act| => Served(act[i]));
    assert forall e :: e in act ==> Served(e) in ads by {
      forall e | e in act ensures Served(e) in ads {
        var i :| 0 <= i < |act| && act[i] == e;
        assert ads[i] == Served(e);
      }
    }
    Ok(200, None, Listing(|ads|, ads))
  }

  /** `get_random_ad`. `choice` is the index `random.choice` draws from the
      active documents; the generator only draws in range. */
  function GetRandomAd(s: Store, choice: nat): (r: Reply<Ad>)
    requires |Active(s)| == 0 || choice < |Active(s)|
    ensures r.Err? <==> forall e :: e in s ==> !IsActive(e.doc)
    ensures r.Err? ==> r == Err(404, "No ads available")
    ensures r.Ok? ==> r.code == 200 && r.note == None
    ensures r.Ok? ==> IsActive(r.data) && exists e :: e in s && IsActive(e.doc) && r.data == Served(e)
  {
    var act := Active(s);
    if |act| == 0 then
      Err(404, "No ads available")
    else
      assert act[choice] in act;
      Ok(200, None, Served(act[choice]))
  }

  /** The fields create checks for, in the order it checks them. */
  const RequiredFields: seq<string> := ["title", "description", "image_url", "link_url"]

  /** The first of `fields` that is not a key of `body`, or None when all are
      present. Only presence counts: an empty string or a null passes. */
  function FirstMissing(fields: seq<string>, body: Body): (r: Option<string>)
    ensures r.None? <==> forall i :: 0 <= i < |fields| ==> fields[i] in body
    ensures r.Some? ==> exists i :: 0 <= i < |fields| && fields[i] == r.value && r.value !in body
                                 && forall j :: 0 <= j < i ==> fields[j] in body
  {
    if fields == [] then None
    else if fields[0] !in body then Some(fields[0])
    else
      var rest := FirstMissing(fields[1..], body);
      if rest.Some? then
        var i :| 0 <= i < |fields| - 1 && fields[1..][i] == rest.value && rest.value !in body
                 && forall j :: 0 <= j < i ==> fields[1..][j] in body;
        assert fields[i + 1] == rest.value;
        assert forall j :: 0 <= j < i + 1 ==> fields[j] in body by {
          forall j | 0 <= j < i + 1 ensures fields[j] in body {
            if j > 0 { assert fields[j] == fields[1..][j - 1]; }
          }
        }
        rest
      else
        assert forall i :: 0 <= i < |fields| ==> fields[i] in body by {
          forall i | 0 <= i < |fields| ensures fields[i] in body {
            if i > 0 { assert fields[i] == fields[1..][i - 1]; }
          }
        }
        rest
  }

  /** A create request's outcome: the reply and the collection after it. */
  datatype Created = Created(reply: Reply<Ad>, store: Store)

  /** `create_ad`. `newKey` is the object id `insert_one` assigns, which no
      stored document has; `now` is the clock reading for `created_at`. */
  function CreateAd(s: Store, body: Body, newKey: ObjectId, now: int): (r: Created)
    requires newKey !in Keys(s)
    ensures r.reply.Ok? <==> forall f :: f in RequiredFields ==> f in body
    ensures r.reply.Err? ==>
              r.store == s && r.reply.code == 400
              && r.reply.message == "Missing required field: " + FirstMissing(RequiredFields, body).value
    ensures r.reply.Ok? ==>
              && r.reply.code == 201 && r.reply.note == Some("Ad created successfully")
              && |r.store| == |s| + 1 && r.store[..|s|] == s
              && r.store[|s|] == Entry(newKey, FromDict(now, body))
              && r.reply.data == Served(r.store[|s|])
              && r.reply.data.adId == Str(newKey)
              && r.reply.data.impressions == 0 && r.reply.data.clicks == 0
  {
    var missing := FirstMissing(RequiredFields, body);
    if missing.Some? then
      Created(Err(400, "Missing required field: " + missing.value), s)
    else
      assert forall f :: f in RequiredFields ==> f in body by {
        forall f | f in RequiredFields ensures f in body {
          var i :| 0 <= i < |RequiredFields| && RequiredFields[i] == f;
        }
      }
      var e := Entry(newKey, FromDict(now, body));
      assert (s + [e])[..|s|] == s;
      Created(Ok(201, Some("Ad created successfully"), Served(e)), s + [e])
  }

  /** The first document stored under `k`. */
  function Find(s: Store, k: ObjectId): (r: Option<Entry>)
    ensures r.Some? ==> r.value in s && r.value.key == k
    ensures r.None? <==> k !in Keys(s)
  {
    if s == [] then None
    else if s[0].key == k then Some(s[0])
    else
      var rest := Find(s[1..], k);
      assert Keys(s) == {s[0].key} + Keys(s[1..]) by {
        assert forall e :: e in s <==> e == s[0] || e in s[1..];
      }
      rest
  }

  /** `get_ad_by_id`: a string that is not an object id is a 400, an object
      id with no document a 404, and otherwise the document is returned
      whether it is active or not. */
  function GetAdById(s: Store, id: Id): (r: Reply<Ad>)
    ensures !ValidId(id) ==> r == Err(400, "Invalid ad ID")
    ensures ValidId(id) && Parse(id).value !in Keys(s) ==> r == Err(404, "Ad not found")
    ensures ValidId(id) && Parse(id).value in Keys(s) ==>
              && r.Ok? && r.code == 200 && r.note == None
              && r.data.adId == Str(Parse(id).value)
              && exists e :: e in s && e.key == Parse(id).value && r.data == Served(e)
  {
    match Parse(id)
    case None => Err(400, "Invalid ad ID")
    case Some(k) =>
      match Find(s, k)
      case None => Err(404, "Ad not found")
      case Some(e) => Ok(200, None, Served(e))
  }

  /** In a collection with distinct keys, a key determines its document. */
  lemma EntryByKey(s: Store, a: Entry, b: Entry)
    requires KeysDistinct(s)
    requires a in s && b in s && a.key == b.key
    ensures a == b
  {
    var i :| 0 <= i < |s| && s[i] == a;
    var j :| 0 <= j < |s| && s[j] == b;
    assert i == j;
  }

  /** Reading any stored document by its served `ad_id` returns exactly that
      document, active or not. */
  lemma GetStored(s: Store, e: Entry)
    requires KeysDistinct(s) && e in s
    ensures GetAdById(s, e.key) == Ok(200, None, Served(e))
  {
    ParsePrinted(e.key);
    assert e.key in Keys(s);
    var found := Find(s, e.key);
    EntryByKey(s, found.value, e);
  }

  /** Creating keeps the keys of the collection distinct. */
  lemma CreateKeepsKeysDistinct(s: Store, body: Body, newKey: ObjectId, now: int)
    requires KeysDistinct(s) && newKey !in Keys(s)
    ensures KeysDistinct(CreateAd(s, body, newKey, now).store)
  {
    var t := CreateAd(s, body, newKey, now).store;
    if t != s {
      forall i, j | 0 <= i < j < |t| ensures t[i].key != t[j].key {
        if j == |s| {
          assert t[i] == s[i];
          assert s[i].key in Keys(s);
        } else {
          assert t[i] == s[i] && t[j] == s[j];
        }
      }
    }
  }

  /** Reading back a created ad by the `ad_id` the create reply carried gives
      the reply's record, with the submitted title, description, URLs,
      location and active flag. */
  lemma CreateThenGet(s: Store, body: Body, newKey: ObjectId, now: int)
    requires KeysDistinct(s) && newKey !in Keys(s)
    requires forall f :: f in RequiredFields ==> f in body
    ensures var r := CreateAd(s, body, newKey, now);
            && r.reply.Ok?
            && GetAdById(r.store, newKey) == Ok(200, None, r.reply.data)
            && r.reply.data.title == body["title"]
            && r.reply.data.description == body["description"]
            && r.reply.data.imageUrl == body["image_url"]
            && r.reply.data.linkUrl == body["link_url"]
            && r.reply.data.location == Get(body, "location")
            && r.reply.data.active == Get(body, "active", Bool(true))
  {
    var r := CreateAd(s, body, newKey, now);
    CreateKeepsKeysDistinct(s, body, newKey, now);
    assert r.store[|s|] in r.store;
    GetStored(r.store, r.store[|s|]);
  }

  /** With no active document the random route is a 404 whatever the draw;
      with exactly one, it is that document. */
  lemma RandomWithSingleActive(s: Store, e: Entry)
    requires e in s && IsActive(e.doc)
    requires forall d :: d in s && IsActive(d.doc) ==> d == e
    ensures GetRandomAd(s, 0) == Ok(200, None, Served(e))
  {
    var act := Active(s);
    assert e in act;
    assert act[0] == e;
  }
}

=== FILE: analytics.dfy ===
/** The `/api/analytics` routes: an append-only, in-memory log of impression
    and click events, and statistics counted over it. */
module Analytics {
  import opened Values

  datatype Kind = Impression | Click

  /** One logged event; `timestamp` is the clock reading when it was logged. */
  datatype Event = Event(kind: Kind, adId: Value, timestamp: int, userLocation: Value)

  /** `analytics_storage`, oldest event first. */
  type Log = seq<Event>

  function TrackedNote(kind: Kind): string {
    match kind
    case Impression => "Impression tracked"
    case Click => "Click tracked"
  }

  /** A tracking request's outcome: the reply and the log after it. */
  datatype Tracked = Tracked(reply: Reply<()>, log: Log)

  /** `track_impression` (kind Impression) and `track_click` (kind Click).
      Only the presence of `ad_id` is checked: neither that the ad exists nor
      that a click follows an impression. `now` stands for the clock. */
  function Track(kind: Kind, body: Body, log: Log, now: int): (r: Tracked)
    ensures "ad_id" !in body ==> r.reply == Err(400, "Missing ad_id") && r.log == log
    ensures "ad_id" in body ==>
              && r.reply == Ok(201, Some(TrackedNote(kind)), ())
              && |r.log| == |log| + 1 && r.log[..|log|] == log
              && r.log[|log|].kind == kind && r.log[|log|].adId == body["ad_id"]
              && r.log[|log|].timestamp == now
              && r.log[|log|].userLocation == (if "location" in body then body["location"] else Null)
  {
    if "ad_id" !in body then
      Tracked(Err(400, "Missing ad_id"), log)
    else
      var e := Event(kind, body["ad_id"], now, Get(body, "location"));
      assert (log + [e])[..|log|] == log;
      Tracked(Ok(201, Some(TrackedNote(kind)), ()), log + [e])
  }

  /** The number of events of one kind: the length of the list comprehension
      `[e for e in analytics_storage if e['type'] == kind]`. */
  function Count(log: Log, kind: Kind): (n: nat)
    ensures n <= |log|
  {
    if log == [] then 0
    else Count(log[..|log| - 1], kind) + (if log[|log| - 1].kind == kind then 1 else 0)
  }

  /** Every logged event is an impression or a click, so the two totals
      add up to the length of the log. */
  lemma {:induction false} CountsCoverLog(log: Log)
    ensures Count(log, Impression) + Count(log, Click) == |log|
  {
    if log != [] {
      CountsCoverLog(log[..|log| - 1]);
    }
  }

  /** The payload of the statistics route. `ctr` is the exact percentage
      before it is rounded to two places. */
  datatype Stats = Stats(totalImpressions: nat, totalClicks: nat, ctr: real)

  /** `get_stats`: the two totals, and a click-through rate that is 0 when
      there is no impression instead of a division by zero. */
  function GetStats(log: Log): (r: Reply<Stats>)
    ensures r.Ok? && r.code == 200 && r.note == None
    ensures r.data.totalImpressions == Count(log, Impression)
    ensures r.data.totalClicks == Count(log, Click)
    ensures r.data.totalImpressions + r.data.totalClicks == |log|
    ensures r.data.totalImpressions == 0 ==> r.data.ctr == 0.0
    ensures r.data.totalImpressions > 0 ==>
              r.data.ctr * (r.data.totalImpressions as real) == (r.data.totalClicks as real) * 100.0
  {
    var impressions := Count(log, Impression);
    var clicks := Count(log, Click);
    CountsCoverLog(log);
    var ctr := if impressions > 0 then (clicks as real) / (impressions as real) * 100.0 else 0.0;
    Ok(200, None, Stats(impressions, clicks, ctr))
  }

  /** An accepted event adds one to the total of its own kind and leaves the
      other total as it was. */
  lemma TrackBumpsOneTotal(kind: Kind, other: Kind, body: Body, log: Log, now: int)
    requires "ad_id" in body && other != kind
    ensures var after := Track(kind, body, log, now).log;
            && Count(after, kind) == Count(log, kind) + 1
            && Count(after, other) == Count(log, other)
            && GetStats(after).data.totalImpressions + GetStats(after).data.totalClicks
               == GetStats(log).data.totalImpressions + GetStats(log).data.totalClicks + 1
  {
    var after := Track(kind, body, log, now).log;
    assert after[..|after| - 1] == log;
  }

  /** Tracking each body in turn, as a series of requests would. */
  function TrackEach(kind: Kind, bodies: seq<Body>, log: Log, now: int): Log
  {
    if bodies == [] then log
    else TrackEach(kind, bodies[1..], Track(kind, bodies[0], log, now).log, now)
  }

  /** N accepted requests of one kind raise that total by exactly N and leave
      the other total unchanged. */
  lemma {:induction false} TrackEachCounts(kind: Kind, other: Kind, bodies: seq<Body>, log: Log, now: int)
    requires other != kind
    requires forall i :: 0 <= i < |bodies| ==> "ad_id" in bodies[i]
    ensures Count(TrackEach(kind, bodies, log, now), kind) == Count(log, kind) + |bodies|
    ensures Count(TrackEach(kind, bodies, log, now), other) == Count(log, other)
  {
    if bodies != [] {
      var next := Track(kind, bodies[0], log, now).log;
      TrackBumpsOneTotal(kind, other, bodies[0], log, now);
      assert forall i :: 0 <= i < |bodies[1..]| ==> "ad_id" in bodies[1..][i] by {
        forall i | 0 <= i < |bodies[1..]| ensures "ad_id" in bodies[1..][i] {
          assert bodies[1..][i] == bodies[i + 1];
        }
      }
      TrackEachCounts(kind, other, bodies[1..], next, now);
    }
  }

  /** Nothing ties clicks to earlier impressions: a single click on an empty
      log already gives more clicks than impressions. */
  lemma ClicksCanExceedImpressions(id: Value, now: int)
    ensures var log := Track(Click, map["ad_id" := id], [], now).log;
            GetStats(log).data.totalClicks > GetStats(log).data.totalImpressions
  {
    var log := Track(Click, map["ad_id" := id], [], now).log;
    assert log[..0] == [];
  }
}

=== FILE: end_to_end.dfy ===
/** How the three layers meet over HTTP: what the admin portal's payload does
    to the backend's collection, how the backend's random-ad reply reaches the
    SDK's callbacks, and what the SDK's tracking calls add to the backend's
    event log. */
module EndToEnd {
  import opened Values
  import opened ObjectIds
  import opened AdModel
  import AdsRoutes
  import Analytics
  import AdminPortal
  import AdManager
  import AdView

  /** `JSON.stringify(formData)` as the backend's `request.get_json()` reads
      it back: every field present, a null location as null. */
  function PayloadJson(p: AdminPortal.Payload): (b: Body)
    ensures forall f :: f in AdsRoutes.RequiredFields ==> f in b
    ensures b["title"] == Str(p.title) && b["description"] == Str(p.description)
    ensures b["image_url"] == Str(p.imageUrl) && b["link_url"] == Str(p.linkUrl)
    ensures "location" in b && b["location"] == (if p.location.Some? then Str(p.location.value) else Null)
    ensures "active" in b && b["active"] == Bool(p.active)
  {
    map["title" := Str(p.title), "description" := Str(p.description),
        "image_url" := Str(p.imageUrl), "link_url" := Str(p.linkUrl),
        "location" := (if p.location.Some? then Str(p.location.value) else Null),
        "active" := Bool(p.active)]
  }

  /** Whatever the admin types, the payload the portal posts passes the
      backend's required-field check, and reading the new ad back by the id
      in the reply gives the trimmed fields, with an empty location stored as
      null. */
  lemma PortalCreateThenGet(f: AdminPortal.Form, s: AdsRoutes.Store, newKey: ObjectId, now: int)
    requires AdsRoutes.KeysDistinct(s) && newKey !in AdsRoutes.Keys(s)
    ensures var p := AdminPortal.BuildPayload(f);
            var r := AdsRoutes.CreateAd(s, PayloadJson(p), newKey, now);
            && r.reply.Ok?
            && var got := AdsRoutes.GetAdById(r.store, newKey);
               && got.Ok?
               && got.data.title == Str(AdminPortal.Trim(f.title))
               && got.data.description == Str(AdminPortal.Trim(f.description))
               && got.data.imageUrl == Str(AdminPortal.Trim(f.imageUrl))
               && got.data.linkUrl == Str(AdminPortal.Trim(f.linkUrl))
               && (AdminPortal.Trim(f.location) == "" ==> got.data.location == Null)
               && (AdminPortal.Trim(f.location) != "" ==> got.data.location == Str(AdminPortal.Trim(f.location)))
               && got.data.active == Bool(f.active)
               && got.data.impressions == 0 && got.data.clicks == 0
  {
    var p := AdminPortal.BuildPayload(f);
    AdsRoutes.CreateThenGet(s, PayloadJson(p), newKey, now);
  }

  /** The HTTP hop from a backend reply to what Retrofit hands the SDK: a
      success body is decoded by `decode`; an error reply has no body. */
  function Transmit(r: Reply<Ad>, decode: Ad -> AdManager.SdkAd): (o: AdManager.FetchOutcome)
    ensures o.Response? && o.code == r.code
    ensures o.body.Some? <==> r.Ok?
    ensures r.Ok? ==> o.body.value == AdManager.AdResponse("success", decode(r.data))
  {
    match r
    case Ok(code, _, ad) => AdManager.Response(code, Some(AdManager.AdResponse("success", decode(ad))))
    case Err(code, _) => AdManager.Response(code, None)
  }

  /** With no active ad in the collection the SDK's caller sees
      "Failed to fetch ad: 404". */
  lemma NoActiveAdReachesSdkAs404(s: AdsRoutes.Store, decode: Ad -> AdManager.SdkAd)
    requires forall e :: e in s ==> !AdsRoutes.IsActive(e.doc)
    ensures |AdsRoutes.Active(s)| == 0
    ensures AdManager.FetchRandomAd(Transmit(AdsRoutes.GetRandomAd(s, 0), decode))
            == AdManager.OnError("Failed to fetch ad: 404")
  {
    AdManager.NotFoundMessage(None);
  }

  /** With an active ad in the collection the SDK's success callback receives
      the decoding of an active stored ad, and an `AdView` that loads it
      tracks one impression for that decoded ad's id. */
  lemma ActiveAdReachesSdk(s: AdsRoutes.Store, choice: nat, decode: Ad -> AdManager.SdkAd,
                           v: AdView.ViewState)
    requires choice < |AdsRoutes.Active(s)| && v.hasManager
    ensures var c := AdManager.FetchRandomAd(Transmit(AdsRoutes.GetRandomAd(s, choice), decode));
            && c.OnSuccess?
            && (exists e :: e in s && AdsRoutes.IsActive(e.doc) && c.ad == decode(AdsRoutes.Served(e)))
            && AdView.Deliver(v, Transmit(AdsRoutes.GetRandomAd(s, choice), decode)).trace
               == v.trace + [AdView.Track(AdManager.TrackImpression(c.ad.adId))]
  {
  }

  function EventKind(e: AdManager.Endpoint): Analytics.Kind {
    match e
    case ImpressionEndpoint => Analytics.Impression
    case ClickEndpoint => Analytics.Click
  }

  /** The backend route a tracking call is posted to, applied to the JSON
      Gson writes for it. */
  function Receive(call: AdManager.TrackCall, log: Analytics.Log, now: int): Analytics.Tracked {
    Analytics.Track(EventKind(call.endpoint), AdManager.RequestJson(call.request), log, now)
  }

  /** Every tracking call the SDK makes is accepted, and appends one event of
      the matching kind for the same id, with no user location. */
  lemma SdkTrackingReachesLog(id: Id, click: bool, log: Analytics.Log, now: int)
    ensures var call := if click then AdManager.TrackClick(id) else AdManager.TrackImpression(id);
            var r := Receive(call, log, now);
            && r.reply.Ok?
            && r.log == log + [Analytics.Event(if click then Analytics.Click else Analytics.Impression,
                                               Str(id), now, Null)]
  {
    var call := if click then AdManager.TrackClick(id) else AdManager.TrackImpression(id);
    var r := Receive(call, log, now);
    assert r.log == r.log[..|log|] + [r.log[|log|]];
  }
}

=== FILE: maps_screen.dfy ===
/** The demo app's navigation: the list of sample maps, the switch between
    the list and the detail screen, and the detail screen's left and right
    arrows over a bounded index. */
module MapsScreen {

  /** `Map.kt`; the drawable resource is named by its file name. */
  datatype MapInfo = MapInfo(id: int, name: string, description: string, kind: string, image: string)

  /** `getSampleMaps()`: seven competitive maps with ids 1 to 7, in order. */
  function SampleMaps(): (maps: seq<MapInfo>)
    ensures |maps| == 7
    ensures forall i :: 0 <= i < |maps| ==> maps[i].id == i + 1 && maps[i].kind == "Competitive"
  {
    [ MapInfo(1, "Dust 2", "Iconic desert map with balanced gameplay", "Competitive", "dust2"),
      MapInfo(2, "Mirage", "Classic Middle Eastern setting", "Competitive", "mirage"),
      MapInfo(3, "Inferno", "Italian village with tight corridors", "Competitive", "inferno"),
      MapInfo(4, "Nuke", "Nuclear facility with vertical gameplay", "Competitive", "nuke"),
      MapInfo(5, "Overpass", "Urban canal setting in Germany", "Competitive", "overpass"),
      MapInfo(6, "Ancient", "Aztec temple ruins", "Competitive", "ancient"),
      MapInfo(7, "Anubis", "Egyptian archaeological site", "Competitive", "anubis") ]
  }

  // ---------------------------------------------------------------------
  // The detail screen's arrows (MapDetailScreen)

  /** The left arrow's `enabled` flag: on exactly when its handler moves. */
  predicate LeftEnabled(i: int)
    ensures LeftEnabled(i) <==> Left(i) != i
  {
    i > 0
  }

  /** The right arrow's `enabled` flag for a list of `n` maps: on exactly
      when its handler moves. */
  predicate RightEnabled(i: int, n: int)
    ensures RightEnabled(i, n) <==> Right(i, n) != i
  {
    i < n - 1
  }

  /** The left arrow's handler: step back unless at the first map. */
  function Left(i: int): (j: int)
    ensures j == i || j == i - 1
    ensures 0 <= i ==> 0 <= j <= i
  {
    if i > 0 then i - 1 else i
  }

  /** The right arrow's handler: step forward unless at the last map. */
  function Right(i: int, n: int): (j: int)
    ensures j == i || j == i + 1
    ensures i < n ==> i <= j < n
  {
    if i < n - 1 then i + 1 else i
  }

  datatype Arrow = LeftArrow | RightArrow

  function Tap(i: int, n: int, a: Arrow): int {
    match a
    case LeftArrow => Left(i)
    case RightArrow => Right(i, n)
  }

  /** The index after a series of arrow taps. */
  function TapAll(i: int, n: int, taps: seq<Arrow>): int
    decreases |taps|
  {
    if taps == [] then i else TapAll(Tap(i, n, taps[0]), n, taps[1..])
  }

  /** An arrow is enabled exactly when tapping it moves the index, so a
      disabled arrow's tap (at index 0 on the left, n - 1 on the right) is a
      no-op. */
  lemma EnabledIffMoves(i: int, n: int)
    ensures LeftEnabled(i) <==> Left(i) != i
    ensures RightEnabled(i, n) <==> Right(i, n) != i
    ensures LeftEnabled(i) ==> Left(i) == i - 1
    ensures RightEnabled(i, n) ==> Right(i, n) == i + 1
  {
  }

  /** One tap keeps an index that starts in [0, n) in [0, n), so
      `maps[currentIndex]` stays defined. */
  lemma TapStaysInRange(i: int, n: int, a: Arrow)
    requires 0 <= i < n
    ensures 0 <= Tap(i, n, a) < n
  {
  }

  /** Any series of taps keeps the index in [0, n). */
  lemma {:induction false} TapAllStaysInRange(i: int, n: int, taps: seq<Arrow>)
    requires 0 <= i < n
    ensures 0 <= TapAll(i, n, taps) < n
    decreases |taps|
  {
    if taps != [] {
      TapStaysInRange(i, n, taps[0]);
      TapAllStaysInRange(Tap(i, n, taps[0]), n, taps[1..]);
    }
  }

  /** Left then right returns to the start whenever left was enabled, and
      right then left whenever right was enabled. */
  lemma ArrowsUndoEachOther(i: int, n: int)
    requires 0 <= i < n
    ensures LeftEnabled(i) ==> TapAll(i, n, [LeftArrow, RightArrow]) == i
    ensures RightEnabled(i, n) ==> TapAll(i, n, [RightArrow, LeftArrow]) == i
  {
    assert [LeftArrow, RightArrow][1..] == [RightArrow];
    assert [RightArrow, LeftArrow][1..] == [LeftArrow];
    assert [RightArrow][1..] == [] && [LeftArrow][1..] == [];
  }

  // ---------------------------------------------------------------------
  // The list/detail switch (MapsScreen)

  /** `selectedMapIndex`: null shows the list, an index shows the detail
      screen, which starts at that index and moves on its own. */
  datatype Screen = ListScreen | DetailScreen(selected: int, current: int)

  /** Tapping the card at index k in the list. */
  function TapCard(s: Screen, k: int): (t: Screen)
    requires s.ListScreen?
    ensures t.DetailScreen? && t.selected == k && t.current == k
  {
    DetailScreen(k, k)
  }

  /** An arrow on the detail screen moves only the detail screen's index,
      and keeps an index valid for `n` maps valid. */
  function TapArrow(s: Screen, n: int, a: Arrow): (t: Screen)
    requires s.DetailScreen?
    ensures t.DetailScreen? && t.selected == s.selected
    ensures 0 <= s.current < n ==> 0 <= t.current < n
    ensures t.current == s.current - 1 || t.current == s.current || t.current == s.current + 1
    ensures t.current == Tap(s.current, n, a)
  {
    s.(current := Tap(s.current, n, a))
  }

  /** The Back button: `selectedMapIndex = null`. */
  function Back(s: Screen): (t: Screen)
    ensures t == ListScreen
  {
    ListScreen
  }

  /** Cards are laid out one per sample map, so a card tap opens a detail
      screen whose index is valid for `maps[currentIndex]`, and any arrows
      keep it so; Back returns to the list. */
  lemma {:induction false} NavigationStaysInRange(k: int, taps: seq<Arrow>)
    requires 0 <= k < |SampleMaps()|
    ensures var d := TapCard(ListScreen, k);
            && 0 <= TapAll(d.current, |SampleMaps()|, taps) < |SampleMaps()|
            && Back(d.(current := TapAll(d.current, |SampleMaps()|, taps))) == ListScreen
  {
    TapAllStaysInRange(k, |SampleMaps()|, taps);
  }
}

=== FILE: object_id.dfy ===
/** MongoDB object ids as the backend routes use them: `ObjectId(s)` parses the
    path parameter of get-by-id, and `str(oid)` is the `ad_id` every route
    emits. The string form of an object id is 24 hexadecimal digits; the
    parser accepts either case and the printer writes lower case. */
module ObjectIds {
  import opened Values

  predicate IsHexDigit(c: char) {
    '0' <= c <= '9' || 'a' <= c <= 'f' || 'A' <= c <= 'F'
  }

  predicate IsLowerHexDigit(c: char) {
    '0' <= c <= '9' || 'a' <= c <= 'f'
  }

  /** The strings `ObjectId(s)` accepts without raising. */
  predicate ValidId(s: string) {
    |s| == 24 && forall i :: 0 <= i < |s| ==> IsHexDigit(s[i])
  }

  /** The strings `str(oid)` can produce. */
  predicate Canonical(s: string) {
    |s| == 24 && forall i :: 0 <= i < |s| ==> IsLowerHexDigit(s[i])
  }

  /** An object id, represented by its printed form, so that `str(oid)` is
      the identity on this type. */
  type ObjectId = s: string | Canonical(s) witness "000000000000000000000000"

  function LowerChar(c: char): (d: char)
    requires IsHexDigit(c)
    ensures IsLowerHexDigit(d)
    ensures IsLowerHexDigit(c) ==> d == c
  {
    if 'A' <= c <= 'F' then (c as int - 'A' as int + 'a' as int) as char else c
  }

  function Lower(s: string): (r: string)
    requires forall i :: 0 <= i < |s| ==> IsHexDigit(s[i])
    ensures |r| == |s|
    ensures forall i :: 0 <= i < |s| ==> r[i] == LowerChar(s[i])
  {
    if s == [] then [] else [LowerChar(s[0])] + Lower(s[1..])
  }

  /** `ObjectId(s)`: the object id a string names, or None where the
      constructor raises. */
  function Parse(s: string): (r: Option<ObjectId>)
    ensures r.Some? <==> ValidId(s)
    ensures r.Some? ==> forall i :: 0 <= i < 24 ==> r.value[i] == LowerChar(s[i])
  {
    if ValidId(s) then Some(Lower(s)) else None
  }

  /** Printing an object id and parsing the result gives the same id back,
      which is what lets a client read an ad by the `ad_id` it was served. */
  lemma ParsePrinted(k: ObjectId)
    ensures Parse(k) == Some(k)
  {
    var r := Parse(k);
    assert r.Some?;
    assert forall i :: 0 <= i < 24 ==> r.value[i] == k[i];
    assert |r.value| == |k| == 24;
    assert r.value == k;
  }

  /** Two valid strings that differ only in the case of their hex letters
      name the same object id. */
  lemma ParseIgnoresCase(s: string, t: string)
    requires ValidId(s) && ValidId(t)
    requires forall i :: 0 <= i < 24 ==> LowerChar(s[i]) == LowerChar(t[i])
    ensures Parse(s) == Parse(t)
  {
    var a, b := Parse(s), Parse(t);
    assert forall i :: 0 <= i < 24 ==> a.value[i] == b.value[i];
    assert |a.value| == |b.value| == 24;
    assert a.value == b.value;
  }
}

=== FILE: values.dfy ===
/** Values shared by every layer of the ad system: optional values, the JSON
    scalars the backend stores and serves, and the reply envelope of the
    Flask routes. */
module Values {

  /** A value that may be absent: Python's None, JavaScript's null and a
      Kotlin nullable all become `None`. */
  datatype Option<+T> = None | Some(value: T)

  /** The identifier of an ad as it travels on the wire. The backend emits
      `str(_id)` and the SDK's tracking calls take a String, so one string
      type serves every layer. */
  type Id = string

  /** A JSON/BSON scalar as a request body or a stored document holds it.
      `Date` is the BSON datetime the backend stamps on new records. */
  datatype Value = Null | Bool(b: bool) | Num(n: int) | Str(s: string) | Date(t: int)

  /** A decoded JSON object: a request body or a stored document. */
  type Body = map<string, Value>

  /** Python's `d.get(key, default)`. */
  function Get(d: Body, key: string, default: Value := Null): Value
  {
    if key in d then d[key] else default
  }

  /** The `(jsonify({...}), code)` pair a Flask route returns: on success a
      payload and sometimes a message, on error only a message. */
  datatype Reply<+T> =
    | Ok(code: nat, note: Option<string>, data: T)
    | Err(code: nat, message: string)
}
